=== FILE: README.md ===
# Roblox player-count key: the refresh coordinator

This project models the refresh coordinator of a Stream Deck plugin. The plugin shows the live player count of a Roblox game on a key or dial. It does this in two versions:

- `src/actions/player-count.ts` is the current version. It keeps a set of registered actions and a single refresh timer, the `updating` in-flight guard, and `updateActions`. That function resolves each action's place to a universe, groups the actions by universe, issues one icon batch and one count batch for the non-zero universes, composites one image per universe and sends it to every action of that universe. Actions in universe 0 get the shipped placeholder icon.
- `src/dev.ericfalk.roblox-player-count.sdPlugin/app.js` is the older browser version. It keeps the `activeKeys` map from context to universe, has `refreshKeys` and `updateKeyPlace`, and starts its timer in the appear handler. The disappear handler tries to stop it, but passes the callback instead of the handle, so the timer keeps running.

The network, the renderer and the host are not run. Each is replaced by a value:

- A network request becomes an `Answer`. It is either `Rejected` or a `Reply` carrying a status and a decoded body. The body is `None` when it does not have the expected shape.
- The composited image is `Image.Rendered(icon, text)`. This stands for the renderer's output on those two inputs.
- The host's interval timers are a table of live handles, `Host.Timers`, together with the next handle to be issued.
- A JavaScript `Map` is `OrderedMaps.OMap`: the keys in insertion order, paired with a finite map from each key to its value.
- An `async` helper's outcome is `Outcome`: it either `Throws` or `Returns(value)`.

Modules: `Wrappers`, `Sequences`, `OrderedMaps` and `Host` are shared. `Fetchers`, `Registry` and `Refresh` model `player-count.ts`. `LegacyApp` models `app.js`.

Behaviour worth stating because one might expect otherwise:

- `getThumbnails` has no `catch`. A rejected icon request, a 200 whose body does not decode, or any one failed per-icon download makes it throw. It does not degrade to an empty map. Its throw then rejects `updateActions` at line 77.
- Rendering is not shared per display format. The code has no format setting: there is one composite per non-zero universe.
- `app.js` never looks at the status of its batch replies.
- Neither version contains the compact "1.2K" count formatting.

## Model

| member | source | states |
|---|---|---|
| Registry.RegisterAction | src/actions/player-count.ts:31-45 | adds the id. If a timer handle is already held, the handle and the running timers stay the same. Otherwise exactly one new timer is started and its handle kept. The registry invariant is preserved and afterwards exactly one timer runs |
| Registry.UnregisterAction | src/actions/player-count.ts:47-53 | removes only that id. The handle is dropped only when the set becomes empty. Under the invariant, the running timers change exactly on the transition from non-empty to empty |
| Registry.RunKeepsSingleTimer | src/actions/player-count.ts:28-53 | after any sequence of registrations and unregistrations, a timer runs iff some action is registered, and never more than one |
| Registry.ReachableStatesAreGood | src/actions/player-count.ts:28-29 | the initial empty registry with no timer satisfies the invariant, so every reachable state does |
| Registry.RegisterAgainStartsNoTimer | src/actions/player-count.ts:31-33 | registering an id that is already registered changes nothing and starts no timer |
| Fetchers.GetUniverseFromPlace | src/actions/player-count.ts:134-143 | yields the decoded `universeId` whenever the reply carries one, and 0 on a rejected request, an undecodable body or a missing `universeId`. A non-zero result is always the id the reply carried. It never fails |
| Fetchers.Thumbnails | src/actions/player-count.ts:159-171 | the keys are exactly the listed `targetId`s. Each value is the downloaded icon of an entry with that id |
| Fetchers.PlayerCounts | src/actions/player-count.ts:188-190 | the keys are exactly the listed ids. Each value is the count of an entry with that id |
| Fetchers.GetThumbnails | src/actions/player-count.ts:145-176 | an empty list yields an empty map whatever the answer, so no request matters. A non-200 yields an empty map. It throws exactly for a rejected request, an undecodable 200 body or a failed icon download. Otherwise it maps each universe the reply lists to a downloaded icon of that universe; requested ids the reply omits get no entry |
| Fetchers.GetPlayerCounts | src/actions/player-count.ts:178-194 | same empty-input and non-200 rules. It throws exactly for a rejected request or an undecodable 200 body. A decoded 200 always returns, mapping each universe the reply lists to its count; requested ids the reply omits get no entry |
| Refresh.Pending | src/actions/player-count.ts:58 | keeps exactly the actions whose id is not in flight. If every id is in flight, nothing is kept |
| Refresh.PendingKeepsEachCopy | src/actions/player-count.ts:58 | the filter keeps every copy of a let-through action and no copy of a held one: the multiplicity of each action in the result is its multiplicity in the input, or 0 if its id is in flight |
| Refresh.ExitUndoesEnter | src/actions/player-count.ts:62-97 | unmarking the actions the guard let through gives back the in-flight set from before the call |
| Refresh.Bucket | src/actions/player-count.ts:71-73 | the reference bucket holds exactly the actions resolving to the given universe |
| Refresh.GroupBy | src/actions/player-count.ts:67-75 | `universeMap` has one key per universe met, each once, in first-seen order |
| Refresh.GroupByBuckets | src/actions/player-count.ts:67-74 | every bucket of `universeMap` equals the reference bucket of its universe. A bucket exists exactly for the universes some action resolves to |
| Refresh.EachActionInExactlyOneBucket | src/actions/player-count.ts:67-74 | an action occurs in the bucket of its own universe as often as in the input, and in no other bucket |
| Refresh.BucketsCoverAll | src/actions/player-count.ts:67-74 | the bucket sizes over all universes met add up to the number of actions |
| Refresh.FanOut | src/actions/player-count.ts:75-94 | the batch list has no duplicates and no 0, and holds exactly the non-zero universes met. The batch settles exactly when both helpers return. Nothing is sent when either throws |
| Refresh.UpdateActions | src/actions/player-count.ts:57-98 | a batch is built exactly when some action is not in flight. Otherwise the call returns with the guard unchanged, no fetch and no send. The batch holds exactly the non-zero universes of the let-through actions, each once. The guard returns to its value before the call exactly when both batch helpers return. When a helper throws, the let-through ids stay marked and nothing is sent. No send targets an action that was in flight |
| Refresh.UpdateActionsReleasing | src/actions/player-count.ts:77-97 | the version with the unmarking in a `finally`: the in-flight set always returns to its value before the call. When the batch settles, it behaves exactly like `updateActions` |
| Refresh.SendAllMember | src/actions/player-count.ts:84-86 | a bucket's send list holds exactly one send of the given image per member |
| Refresh.GroupByBucket | src/actions/player-count.ts:67-74 | the bucket stored under any universe, or `[]` if none is stored, is the reference bucket of that universe |
| Refresh.BucketSends | src/actions/player-count.ts:84-86 | the sends of one universe's bucket are exactly one send of that universe's composite to each action resolving to it |
| Refresh.DispatchMember | src/actions/player-count.ts:81-87 | the non-zero dispatch sends exactly, to each action whose universe is in the batch, the single composite of that universe |
| Refresh.DispatchSize | src/actions/player-count.ts:81-87 | the non-zero dispatch makes as many sends as the listed buckets hold |
| Refresh.SendsTargetPending | src/actions/player-count.ts:81-93 | every send goes to an action the guard let through |
| Refresh.EveryActionGetsItsGroupImage | src/actions/player-count.ts:81-93 | on a settled batch, every let-through action is sent its intended image and nothing else is sent. The intended image is the placeholder path in universe 0, otherwise its universe's one composite. There is exactly one send per action |
| Refresh.OneSendPerAction | src/actions/player-count.ts:81-93 | a settled batch sends exactly as many images as there are let-through actions: the universe buckets partition the actions, and the placeholder bucket covers universe 0 |
| Refresh.ActionSentItsImage | src/actions/player-count.ts:81-93 | on a settled batch, one let-through action is sent the placeholder in universe 0, otherwise its universe's composite of thumbnail and count |
| Refresh.EveryActionSentItsImage | src/actions/player-count.ts:81-93 | on a settled batch, each let-through action is sent its intended image: the placeholder in universe 0, otherwise its universe's composite of thumbnail and count |
| Refresh.OnlyIntendedSends | src/actions/player-count.ts:81-93 | on a settled batch, every send goes to a let-through action and carries that action's intended image |
| Refresh.OverlappingCallSkipsHeldActions | src/actions/player-count.ts:55-64 | a call made while another holds its actions lets none of them through and sends them nothing |
| Refresh.RejectedBatchStrandsActions | src/actions/player-count.ts:77-97 | suppose some let-through action needs a fetch and a batch request is rejected. Then after the call the in-flight set differs from before, and every later call on the same actions returns at once and refreshes nothing |
| Sequences.Distinct | src/dev.ericfalk.roblox-player-count.sdPlugin/app.js:16-22 | the result has no duplicates and holds exactly the input's elements |
| Sequences.DistinctFirstSeenOrder | src/dev.ericfalk.roblox-player-count.sdPlugin/app.js:18-22 | an element listed earlier in the de-duplicated list was first seen earlier in the input |
| Sequences.NonZero | src/actions/player-count.ts:76 | keeps exactly the non-zero elements, and keeps a duplicate-free list duplicate-free |
| LegacyApp.UpdateKeyPlace | src/dev.ericfalk.roblox-player-count.sdPlugin/app.js:81-95 | the key's entry becomes the resolved universe, 0 on any failure. Every other entry is unchanged. A new key is appended and existing keys keep their order |
| LegacyApp.GamesList | src/dev.ericfalk.roblox-player-count.sdPlugin/app.js:16-22 | the loop yields each game id of `activeKeys` exactly once, in first-seen order |
| LegacyApp.AppIcons | src/dev.ericfalk.roblox-player-count.sdPlugin/app.js:25-54 | it returns exactly when a reply decodes and every icon downloads, whatever the status. The map then holds the icon of each listed `targetId` |
| LegacyApp.AppCounts | src/dev.ericfalk.roblox-player-count.sdPlugin/app.js:56-66 | it returns exactly when a reply decodes, whatever the status. The map then holds the count of each listed id |
| LegacyApp.KeyImages | src/dev.ericfalk.roblox-player-count.sdPlugin/app.js:68-73 | the map has an entry exactly for each game with an icon, and that entry is the game's icon composited with its count (or the text `undefined` when the count is missing), the same per-game image `RefreshKeys` sends |
| LegacyApp.RefreshKeys | src/dev.ericfalk.roblox-player-count.sdPlugin/app.js:11-79 | with no keys it does nothing. It rejects exactly when either batch fails. Otherwise each key, in order, is sent the image for its own game id: its icon composited with its count, or nothing when the game has no icon |
| LegacyApp.ZeroUniverseInGamesList | src/dev.ericfalk.roblox-player-count.sdPlugin/app.js:18-22 | a key in universe 0 puts 0 into the batch list |
| LegacyApp.GamesListWithoutZero | src/dev.ericfalk.roblox-player-count.sdPlugin/app.js:16-22 | the corrected batch list has no duplicates and no 0, and holds every other game id of `activeKeys` |
| LegacyApp.WillAppear | src/dev.ericfalk.roblox-player-count.sdPlugin/app.js:128-131 | leaves `activeKeys` unchanged. It starts one new timer whenever `activeKeys` is empty, and otherwise touches no timer |
| LegacyApp.WillDisappear | src/dev.ericfalk.roblox-player-count.sdPlugin/app.js:137-142 | removes exactly that context and leaves every other entry as it was. It never stops a timer |
| LegacyApp.TwoAppearsStartTwoTimers | src/dev.ericfalk.roblox-player-count.sdPlugin/app.js:128-134 | two appears before the first lookup settles leave two timers running |
| LegacyApp.TimerOutlivesLastKey | src/dev.ericfalk.roblox-player-count.sdPlugin/app.js:137-142 | after the only key appears, resolves and disappears, `activeKeys` is empty and its timer still runs |
| LegacyApp.LateLookupRevivesKey | src/dev.ericfalk.roblox-player-count.sdPlugin/app.js:81-95 | a lookup that settles after its key disappeared puts the key back into `activeKeys` |
| LegacyApp.FixedAppear | src/dev.ericfalk.roblox-player-count.sdPlugin/app.js:128-135 | the corrected appear inserts the key at once. A new key starts at universe 0. It starts a timer only when no handle is held, and keeps the one-timer invariant. Every other key keeps its entry |
| LegacyApp.FixedResolved | src/dev.ericfalk.roblox-player-count.sdPlugin/app.js:132-134 | a settling lookup updates its key only while the key is active. The set of keys and the timer are unchanged. Every other key keeps its entry |
| LegacyApp.FixedDisappear | src/dev.ericfalk.roblox-player-count.sdPlugin/app.js:137-142 | the corrected disappear removes exactly that key. It stops the held timer by its handle when no key is left, and keeps the invariant. Every other key keeps its entry |
| LegacyApp.FixedRunKeepsOneTimer | src/dev.ericfalk.roblox-player-count.sdPlugin/app.js:128-142 | under the corrected handlers, any interleaving of appears, lookups and disappears keeps exactly one timer while some key is active and none once all are gone |
| LegacyApp.FixedReachableStatesAreGood | src/dev.ericfalk.roblox-player-count.sdPlugin/app.js:9 | from the empty `activeKeys` with no timer, every state the corrected handlers reach holds exactly one timer while some key is active and none otherwise |

## Left out

- HTTP requests, JSON decoding and URL building: each reply is an `Answer` input. The JavaScript `parseInt` of a non-numeric string (`NaN`) is not modelled: decoded ids are integers.
- Image compositing (`addTextToImage` with sharp/SVG or canvas) and the font-size arithmetic: a composite is the value `Rendered(icon, text)`. In `app.js`, an image that never loads would leave the refresh pending forever; this is not modelled.
- Refresh.FanOut: the number of image compositions is not tracked. The model composites once per universe of the duplicate-free batch, and `Refresh.DispatchMember` shows that every send for a universe carries the same composite. No contract counts the calls to the image library.
- Refresh.EveryActionSentItsImage: rendering never fails in the model. A non-zero universe with no thumbnail entry (a non-200 icon reply, or one that omits the id) is composited from the empty icon `""` that line 82 of `player-count.ts` passes on. Lines 123-125 turn that into an empty buffer. If the image library rejects an empty buffer, the rejection happens inside the un-awaited `forEach(async …)` of line 81, and that universe's actions get no image at all. The fan-in lemmas `Refresh.EveryActionGetsItsGroupImage`, `Refresh.OneSendPerAction` and `Refresh.OnlyIntendedSends` assume every render returns, so they do not cover that case.
- `toLocaleString` formatting of counts: the count entries carry the displayed text.
- Stream Deck SDK plumbing: `getActionById`, `setImage` (a send is a value), `getSettings`, `openUrl` on key press, logging, `FileReader` and font loading. The timer callback's lookup of each registered id by `getActionById` is not modelled. `updateActions` is modelled on the list of actions it is handed.
- A rejected `getSettings` at line 69 of `player-count.ts` would also leave the guard set. Settings reads are taken as never failing.
- Asynchronous interleaving and timer firing. Lookups settle in list order. The icon downloads, the lookups and the non-zero dispatch (an un-awaited `forEach(async …)`) run in list order. In the source, the non-zero dispatch may finish after the placeholder sends and after the guard release. The in-flight guard is modelled as sequential enter and exit steps.
- Fetchers.Thumbnails: when two entries share a `targetId`, the source keeps the download that finishes last. The contract only promises the icon of some entry with that id.
- Fetchers.PlayerCounts: for repeated ids, the contract only promises the count of some entry with that id, not the last one.
- Refresh.GroupBy: `universeMap`'s order follows the order in which lookups settle. The model uses the order of the action list.
- LegacyApp.RefreshKeys: `activeKeys` is read once. The source reads it again after the fetches settle.

## Findings

| source | as written | input that shows it | evidently intended | confidence | as-written member | corrected member |
|---|---|---|---|---|---|---|
| src/actions/player-count.ts:77-97 | a throwing batch helper rejects `updateActions` before the unmarking at lines 95-97 | one action and a rejected icon request | unmark in a `finally`, so the next tick can retry | high, not executed | Refresh.RejectedBatchStrandsActions | Refresh.UpdateActionsReleasing |
| src/dev.ericfalk.roblox-player-count.sdPlugin/app.js:128-134 | the timer starts when `activeKeys` is empty, but the key is inserted only after its lookup settles | two appears before the first lookup settles | one timer, started once and kept by handle | high, not executed | LegacyApp.TwoAppearsStartTwoTimers | LegacyApp.FixedRunKeepsOneTimer |
| src/dev.ericfalk.roblox-player-count.sdPlugin/app.js:140 | `clearInterval(refreshKeys)` passes the callback, not a handle | appear, lookup, disappear of one key | stop the timer by the handle `setInterval` returned | high, not executed | LegacyApp.TimerOutlivesLastKey | LegacyApp.FixedDisappear |
| src/dev.ericfalk.roblox-player-count.sdPlugin/app.js:18-22 | universe 0 goes into both batch requests | one key whose lookup failed | keep 0 out of the batch, as the current version does | medium, not executed | LegacyApp.ZeroUniverseInGamesList | LegacyApp.GamesListWithoutZero |
| src/dev.ericfalk.roblox-player-count.sdPlugin/app.js:81-95 | a lookup settling after its key disappeared sets the key again | appear, disappear, then the lookup settles | drop the result for a key no longer active | medium, not executed | LegacyApp.LateLookupRevivesKey | LegacyApp.FixedResolved |

=== FILE: fetchers.dfy ===
/** The three network helpers of the current coordinator, with each network
    response given as an `Answer` instead of being fetched. */
module Fetchers {
  import opened Wrappers
  import opened Host

  /** One entry of the icon batch response: the universe it is for, and what
      the follow-up download of its `imageUrl` produced (`None` when that
      download rejected), already encoded as a data URL. */
  datatype ThumbnailData = ThumbnailData(targetId: int, image: Option<string>)

  /** One entry of the game batch response: the universe and its player
      count, already formatted for display. */
  datatype UniverseData = UniverseData(id: int, playing: string)

  /** The place-to-universe answer's decoded body carries the `universeId`
      field, `None` when it is missing or empty. */
  type UniverseAnswer = Answer<Option<int>>

  /** `getUniverseFromPlace`: the universe a place belongs to, 0 whenever it
      cannot be told. The status code is not consulted; a body that does not
      decode is caught like a network failure. */
  function GetUniverseFromPlace(ans: UniverseAnswer): (u: int)
    ensures ans.Rejected? ==> u == 0
    ensures ans.Reply? && ans.body.None? ==> u == 0
    ensures ans.Reply? && ans.body.Some? && ans.body.value.None? ==> u == 0
    ensures ans.Reply? && ans.body.Some? && ans.body.value.Some? ==> u == ans.body.value.value
    ensures u != 0 ==> ans.Reply? && ans.body == Some(Some(u))
  {
    match ans
    case Rejected => 0
    case Reply(_, body) =>
      match body
      case None => 0
      case Some(field) => field.GetOr(0)
  }

  /** A map filled by `map.set(k, v)` for each pair in turn. */
  function ToMap<V>(ps: seq<(int, V)>): (m: map<int, V>)
    ensures m.Keys == set i | 0 <= i < |ps| :: ps[i].0
    ensures forall k :: k in m ==> (k, m[k]) in ps
  {
    if |ps| == 0 then map[]
    else
      var p := ps[..|ps| - 1];
      var last := ps[|ps| - 1];
      assert forall q :: q in p ==> q in ps;
      var all := set i | 0 <= i < |ps| :: ps[i].0;
      var before := set i | 0 <= i < |p| :: p[i].0;
      assert all == before + {last.0} by {
        forall k | k in all ensures k in before + {last.0} {
          var i :| 0 <= i < |ps| && ps[i].0 == k;
          if i < |p| { assert p[i] == ps[i]; }
        }
      }
      ToMap(p)[last.0 := last.1]
  }

  /** The reply is a 200 whose body decoded. */
  predicate Decoded<T>(ans: Answer<T>) {
    ans.Reply? && ans.status == 200 && ans.body.Some?
  }

  /** Every per-icon download resolved. */
  predicate AllDownloaded(es: seq<ThumbnailData>) {
    forall i :: 0 <= i < |es| ==> es[i].image.Some?
  }

  function Thumbnails(es: seq<ThumbnailData>): (m: map<int, string>)
    requires AllDownloaded(es)
    ensures m.Keys == set e | e in es :: e.targetId
    ensures forall k :: k in m ==> ThumbnailData(k, Some(m[k])) in es
  {
    var ps := seq(|es|, i requires 0 <= i < |es| => (es[i].targetId, es[i].image.value));
    var m := ToMap(ps);
    assert forall k :: k in m ==> ThumbnailData(k, Some(m[k])) in es by {
      forall k | k in m ensures ThumbnailData(k, Some(m[k])) in es {
        var i :| 0 <= i < |ps| && ps[i] == (k, m[k]);
        assert es[i] == ThumbnailData(k, Some(m[k]));
      }
    }
    assert m.Keys == set e | e in es :: e.targetId by {
      forall k | k in (set e | e in es :: e.targetId) ensures k in m.Keys {
        var e :| e in es && e.targetId == k;
        var i :| 0 <= i < |es| && es[i] == e;
        assert ps[i].0 == k;
      }
    }
    m
  }

  function PlayerCounts(es: seq<UniverseData>): (m: map<int, string>)
    ensures m.Keys == set e | e in es :: e.id
    ensures forall k :: k in m ==> UniverseData(k, m[k]) in es
  {
    var ps := seq(|es|, i requires 0 <= i < |es| => (es[i].id, es[i].playing));
    var m := ToMap(ps);
    assert forall k :: k in m ==> UniverseData(k, m[k]) in es by {
      forall k | k in m ensures UniverseData(k, m[k]) in es {
        var i :| 0 <= i < |ps| && ps[i] == (k, m[k]);
        assert es[i] == UniverseData(k, m[k]);
      }
    }
    assert m.Keys == set e | e in es :: e.id by {
      forall k | k in (set e | e in es :: e.id) ensures k in m.Keys {
        var e :| e in es && e.id == k;
        var i :| 0 <= i < |es| && es[i] == e;
        assert ps[i].0 == k;
      }
    }
    m
  }

  /** A reply on which `getThumbnails` throws for a non-empty list: the
      request failed, or a 200 whose body does not decode or whose icon
      downloads do not all resolve. */
  predicate ThumbnailsReject(ans: Answer<seq<ThumbnailData>>) {
    ans.Rejected? || (ans.status == 200 && !(ans.body.Some? && AllDownloaded(ans.body.value)))
  }

  /** A reply on which `getPlayerCounts` throws for a non-empty list. */
  predicate CountsReject(ans: Answer<seq<UniverseData>>) {
    ans.Rejected? || (ans.status == 200 && ans.body.None?)
  }

  /** `getThumbnails`: no request for an empty list; an empty map for a
      reply that is not a 200; otherwise each listed universe's downloaded
      icon. Nothing catches a rejection: a failed request, a 200 body that
      does not decode, or any one failed icon download makes it throw. */
  function GetThumbnails(universeIds: seq<int>, ans: Answer<seq<ThumbnailData>>): (r: Outcome<map<int, string>>)
    ensures |universeIds| == 0 ==> r == Returns(map[])
    ensures |universeIds| > 0 && ans.Reply? && ans.status != 200 ==> r == Returns(map[])
    ensures r.Throws? <==> |universeIds| > 0 && ThumbnailsReject(ans)
    ensures |universeIds| > 0 && Decoded(ans) && r.Returns? ==>
      && r.value.Keys == (set e | e in ans.body.value :: e.targetId)
      && forall k :: k in r.value ==> ThumbnailData(k, Some(r.value[k])) in ans.body.value
  {
    if |universeIds| == 0 then Returns(map[])
    else
      match ans
      case Rejected => Throws
      case Reply(status, body) =>
        if status != 200 then Returns(map[])
        else if body.None? || !AllDownloaded(body.value) then Throws
        else Returns(Thumbnails(body.value))
  }

  /** `getPlayerCounts`: the same policy as `getThumbnails`, one request,
      each listed universe's displayed count. */
  function GetPlayerCounts(universeIds: seq<int>, ans: Answer<seq<UniverseData>>): (r: Outcome<map<int, string>>)
    ensures |universeIds| == 0 ==> r == Returns(map[])
    ensures |universeIds| > 0 && ans.Reply? && ans.status != 200 ==> r == Returns(map[])
    ensures r.Throws? <==> |universeIds| > 0 && CountsReject(ans)
    ensures |universeIds| > 0 && Decoded(ans) ==>
      && r.Returns?
      && r.value.Keys == (set e | e in ans.body.value :: e.id)
      && forall k :: k in r.value ==> UniverseData(k, r.value[k]) in ans.body.value
  {
    if |universeIds| == 0 then Returns(map[])
    else
      match ans
      case Rejected => Throws
      case Reply(status, body) =>
        if status != 200 then Returns(map[])
        else if body.None? then Throws
        else Returns(PlayerCounts(body.value))
  }
}

=== FILE: host.dfy ===
/** What the coordinators see of the world around them, as plain values:
    the host's interval timers, the outcome of a network request, and the
    image handed to a key. */
module Host {
  import opened Wrappers

  /** The id the host gives each instance of an action on a key or dial. */
  type ActionId = string

  /** The host's table of running interval timers. `next` is the handle the
      next `setInterval` will return; handles are never reused. */
  datatype Timers = Timers(live: set<nat>, next: nat)

  /** Every running timer's handle was issued before `next`. */
  predicate Fresh(t: Timers) {
    forall h :: h in t.live ==> h < t.next
  }

  const NoTimers := Timers({}, 1)

  /** `setInterval`: starts one more timer and returns its new handle. */
  function SetInterval(t: Timers): (r: (nat, Timers))
    ensures Fresh(t) ==> r.0 !in t.live && Fresh(r.1)
    ensures r.1.live == t.live + {r.0}
  {
    (t.next, Timers(t.live + {t.next}, t.next + 1))
  }

  /** What is passed to `clearInterval`: a handle `setInterval` returned, or
      some other value (such as the callback function), which matches no
      timer and so stops nothing. */
  datatype TimerArg = Handle(h: nat) | NotAHandle

  /** `clearInterval`. */
  function ClearInterval(t: Timers, arg: TimerArg): (r: Timers)
    ensures arg.Handle? ==> r.live == t.live - {arg.h}
    ensures arg.NotAHandle? ==> r == t
    ensures Fresh(t) ==> Fresh(r)
  {
    match arg
    case Handle(h) => t.(live := t.live - {h})
    case NotAHandle => t
  }

  /** The outcome of one `fetch` followed by decoding its body: the request
      rejected (network failure), or a reply with its HTTP status and the
      decoded body, `None` when the body does not decode to the expected
      shape (so that reading it throws). */
  datatype Answer<T> = Rejected | Reply(status: int, body: Option<T>)

  /** An image sent to a key: the composite of an icon and a text, standing
      for the renderer's deterministic output on those two inputs, or the
      path of an image resource shipped with the plugin. */
  datatype Image = Rendered(icon: string, text: string) | Resource(path: string)

  /** How an `async` helper settles: its promise rejects, or it returns a value. */
  datatype Outcome<T> = Throws | Returns(value: T) {

    /** The returned value, or `default` for a rejection. */
    function GetOr(default: T): T {
      match this
      case Returns(v) => v
      case Throws => default
    }
  }
}

=== FILE: legacy_app.dfy ===
/** The older browser-side coordinator: `activeKeys` maps each key's context
    to its universe id, `refreshKeys` fetches and dispatches for all keys,
    `updateKeyPlace` resolves one key, the appear handler starts the refresh
    timer, and the disappear handler tries to stop it but passes the
    callback instead of the handle, so nothing is stopped. */
module LegacyApp {
  import opened Wrappers
  import opened Sequences
  import opened OrderedMaps
  import opened Host
  import opened Fetchers

  type Context = string

  /** `activeKeys`: context to universe id, in insertion order. */
  type KeyMap = OMap<Context, int>

  /** The text the canvas draws for a count that is missing (`undefined`). */
  const MISSING_TEXT := "undefined"

  /** `updateKeyPlace`: the key's entry becomes the resolved universe, 0 on
      any failure; no other entry changes, and a new key goes last. */
  function UpdateKeyPlace(keys: KeyMap, context: Context, ans: UniverseAnswer): (r: KeyMap)
    ensures Get(r, context) == Some(GetUniverseFromPlace(ans))
    ensures forall c :: c != context ==> Get(r, c) == Get(keys, c)
    ensures Keys(r) == if context in Keys(keys) then Keys(keys) else Keys(keys) + [context]
  {
    Put(keys, context, GetUniverseFromPlace(ans))
  }

  /** The `gamesList` loop: each game id of `activeKeys` once, first-seen
      order. */
  method GamesList(keys: KeyMap) returns (games: seq<int>)
    ensures games == Distinct(Values(keys))
    ensures NoDup(games)
    ensures forall g :: g in games <==> g in Values(keys)
  {
    games := [];
    var i := 0;
    var values := Values(keys);
    while i < |values|
      invariant 0 <= i <= |values|
      invariant games == Distinct(values[..i])
    {
      assert values[..i + 1][..i] == values[..i];
      if values[i] !in games {
        games := games + [values[i]];
      }
      i := i + 1;
    }
    assert values[..|values|] == values;
  }

  /** The icon batch as this version reads it: the status is not looked at,
      and a body without `data` or any failed icon download rejects. */
  function AppIcons(ans: Answer<seq<ThumbnailData>>): (r: Outcome<map<int, string>>)
    ensures r.Returns? <==> ans.Reply? && ans.body.Some? && AllDownloaded(ans.body.value)
    ensures r.Returns? ==>
      && r.value.Keys == (set e | e in ans.body.value :: e.targetId)
      && forall g :: g in r.value ==> ThumbnailData(g, Some(r.value[g])) in ans.body.value
  {
    match ans
    case Rejected => Throws
    case Reply(_, body) =>
      if body.None? || !AllDownloaded(body.value) then Throws else Returns(Thumbnails(body.value))
  }

  /** The count batch as this version reads it: the status is not looked at. */
  function AppCounts(ans: Answer<seq<UniverseData>>): (r: Outcome<map<int, string>>)
    ensures r.Returns? <==> ans.Reply? && ans.body.Some?
    ensures r.Returns? ==>
      && r.value.Keys == (set e | e in ans.body.value :: e.id)
      && forall g :: g in r.value ==> UniverseData(g, r.value[g]) in ans.body.value
  {
    match ans
    case Rejected => Throws
    case Reply(_, body) =>
      if body.None? then Throws else Returns(PlayerCounts(body.value))
  }

  /** `keyImages`: one composite per game that has an icon. */
  function KeyImages(icons: map<int, string>, counts: map<int, string>): (m: map<int, Image>)
    ensures m.Keys == icons.Keys
    ensures forall g :: ImageForGame(icons, counts, g) == (if g in m then Some(m[g]) else None)
  {
    map g | g in icons :: Rendered(icons[g], MapGetOr(counts, g, MISSING_TEXT))
  }

  /** The image a key showing game `g` is meant to get: the composite of the
      game's icon and its count, or nothing when the game has no icon. */
  function ImageForGame(icons: map<int, string>, counts: map<int, string>, g: int): Option<Image> {
    if g in icons then Some(Rendered(icons[g], MapGetOr(counts, g, MISSING_TEXT))) else None
  }

  /** One `$SD.setImage` call; `None` when `keyImages.get` came back
      `undefined`. */
  datatype KeySend = KeySend(context: Context, image: Option<Image>)

  /** What `refreshKeys` does: nothing for no keys; the batch list and a
      rejection when either batch fails; otherwise the batch list and one
      `setImage` per key. */
  datatype RefreshResult = Skipped | Rejects(games: seq<int>) | Sent(games: seq<int>, sends: seq<KeySend>)

  /** `refreshKeys` over a snapshot of `activeKeys`. */
  method RefreshKeys(keys: KeyMap, iconsAns: Answer<seq<ThumbnailData>>, countsAns: Answer<seq<UniverseData>>)
    returns (r: RefreshResult)
    ensures r.Skipped? <==> Size(keys) == 0
    ensures !r.Skipped? ==> r.games == Distinct(Values(keys))
    ensures r.Rejects? <==> Size(keys) > 0 && (AppIcons(iconsAns).Throws? || AppCounts(countsAns).Throws?)
    ensures r.Sent? ==> |r.sends| == Size(keys)
    ensures r.Sent? ==> forall i :: 0 <= i < Size(keys) ==>
      r.sends[i] == KeySend(Keys(keys)[i], ImageForGame(AppIcons(iconsAns).value, AppCounts(countsAns).value, Values(keys)[i]))
  {
    if Size(keys) == 0 {
      return Skipped;
    }
    var games := GamesList(keys);
    var icons := AppIcons(iconsAns);
    var counts := AppCounts(countsAns);
    if icons.Throws? || counts.Throws? {
      return Rejects(games);
    }
    var keyImages := KeyImages(icons.value, counts.value);
    ghost var iconMap := icons.value;
    ghost var countMap := counts.value;
    var contexts := Keys(keys);
    var values := Values(keys);
    var sends: seq<KeySend> := [];
    var i := 0;
    while i < |contexts|
      invariant 0 <= i <= |contexts|
      invariant |sends| == i
      invariant forall j :: 0 <= j < i ==> sends[j] == KeySend(contexts[j], ImageForGame(iconMap, countMap, values[j]))
    {
      var gameId := values[i];
      sends := sends + [KeySend(contexts[i], if gameId in keyImages then Some(keyImages[gameId]) else None)];
      i := i + 1;
    }
    return Sent(games, sends);
  }

  /** Id 0 is not kept out of the batch: a key whose place did not resolve
      puts universe 0 into both batch requests. */
  lemma ZeroUniverseInGamesList()
    ensures Distinct(Values(OneKey("key-1", 0))) == [0]
  {
    assert Values(OneKey("key-1", 0)) == [0];
    assert [0][..0] == [];
  }

  /** The batch list with universe 0 left out. */
  method GamesListWithoutZero(keys: KeyMap) returns (games: seq<int>)
    ensures NoDup(games)
    ensures 0 !in games
    ensures forall g :: g in games <==> g in Values(keys) && g != 0
  {
    games := [];
    var i := 0;
    var values := Values(keys);
    while i < |values|
      invariant 0 <= i <= |values|
      invariant NoDup(games) && 0 !in games
      invariant forall g :: g in games <==> g in values[..i] && g != 0
    {
      assert forall g :: g in values[..i + 1] <==> g in values[..i] || g == values[i];
      if values[i] != 0 && values[i] !in games {
        games := games + [values[i]];
      }
      i := i + 1;
    }
    assert values[..|values|] == values;
  }

  // ---------------------------------------------------------------------
  // The timer as the handlers manage it

  /** `activeKeys` and the host's timers. The handle `setInterval` returns is
      not kept anywhere. */
  datatype AppState = AppState(keys: KeyMap, timers: Timers)

  const AppInit := AppState(RawMap([], map[]), NoTimers)

  /** `activeKeys` holding one key. */
  function OneKey(context: Context, universe: int): KeyMap {
    RawMap([context], map[context := universe])
  }

  /** `onWillAppear`, up to the point where it waits for `updateKeyPlace`: a
      timer is started whenever `activeKeys` is empty, and the key itself is
      not inserted yet. */
  function WillAppear(s: AppState, context: Context): (r: AppState)
    ensures r.keys == s.keys
    ensures Size(s.keys) == 0 ==> r.timers.live == s.timers.live + {s.timers.next} && s.timers.next < r.timers.next
    ensures Size(s.keys) > 0 ==> r.timers == s.timers
  {
    if Size(s.keys) == 0 then s.(timers := SetInterval(s.timers).1) else s
  }

  /** The `updateKeyPlace` started by an appear or a settings change settles. */
  function PlaceResolved(s: AppState, context: Context, ans: UniverseAnswer): AppState {
    s.(keys := UpdateKeyPlace(s.keys, context, ans))
  }

  /** `onWillDisappear`: removes exactly this key, then passes the callback to
      `clearInterval`, which stops no timer. */
  function WillDisappear(s: AppState, context: Context): (r: AppState)
    ensures forall c :: c in Keys(r.keys) <==> c in Keys(s.keys) && c != context
    ensures forall c :: c != context ==> Get(r.keys, c) == Get(s.keys, c)
    ensures r.timers == s.timers
  {
    var keys := Delete(s.keys, context);
    AppState(keys, if Size(keys) == 0 then ClearInterval(s.timers, NotAHandle) else s.timers)
  }

  /** Two keys appearing before the first lookup settles start two timers. */
  lemma TwoAppearsStartTwoTimers()
    ensures
      var s := WillAppear(WillAppear(AppInit, "key-1"), "key-2");
      Size(s.keys) == 0 && |s.timers.live| == 2
  {
    var s := WillAppear(WillAppear(AppInit, "key-1"), "key-2");
    assert s.timers.live == {1, 2};
  }

  /** The last key disappearing leaves its timer running. */
  lemma TimerOutlivesLastKey(ans: UniverseAnswer)
    ensures
      var s := WillDisappear(PlaceResolved(WillAppear(AppInit, "key-1"), "key-1", ans), "key-1");
      Size(s.keys) == 0 && s.timers.live == {1}
  {
  }

  /** A lookup that settles after its key disappeared puts the key back. */
  lemma LateLookupRevivesKey(ans: UniverseAnswer)
    ensures
      var s := PlaceResolved(WillDisappear(WillAppear(AppInit, "key-1"), "key-1"), "key-1", ans);
      Keys(s.keys) == ["key-1"]
  {
  }

  // ---------------------------------------------------------------------
  // The timer as evidently intended

  /** `activeKeys`, the handle of the refresh timer if one was started, and
      the host's timers. */
  datatype FixedState = FixedState(keys: KeyMap, interval: Option<nat>, timers: Timers)

  const FixedInit := FixedState(RawMap([], map[]), None, NoTimers)

  /** One timer, held by handle, while some key is active; none otherwise. */
  predicate FixedGood(s: FixedState) {
    && (s.interval.Some? <==> Size(s.keys) > 0)
    && s.timers.live == (if s.interval.Some? then {s.interval.value} else {})
    && Fresh(s.timers)
  }

  /** Appear: the key is inserted at once with universe 0 until its lookup
      settles, and a timer is started only when no handle is held. */
  function FixedAppear(s: FixedState, context: Context): (r: FixedState)
    ensures context in Keys(r.keys)
    ensures context !in Keys(s.keys) ==> Get(r.keys, context) == Some(0)
    ensures forall c :: c != context ==> Get(r.keys, c) == Get(s.keys, c)
    ensures s.interval.Some? ==> r.interval == s.interval && r.timers == s.timers
    ensures FixedGood(s) ==> FixedGood(r)
  {
    var keys := if context in Keys(s.keys) then s.keys else Put(s.keys, context, 0);
    if s.interval.None? then
      var (h, t) := SetInterval(s.timers);
      FixedState(keys, Some(h), t)
    else
      s.(keys := keys)
  }

  /** A lookup settling updates its key only while the key is active. */
  function FixedResolved(s: FixedState, context: Context, ans: UniverseAnswer): (r: FixedState)
    ensures context in Keys(s.keys) ==> Get(r.keys, context) == Some(GetUniverseFromPlace(ans))
    ensures forall c :: c != context ==> Get(r.keys, c) == Get(s.keys, c)
    ensures forall c :: c in Keys(r.keys) <==> c in Keys(s.keys)
    ensures r.interval == s.interval && r.timers == s.timers
    ensures FixedGood(s) ==> FixedGood(r)
  {
    if context in Keys(s.keys) then s.(keys := UpdateKeyPlace(s.keys, context, ans)) else s
  }

  /** Disappear: removes the key, and stops the held timer by its handle when
      no key is left. */
  function FixedDisappear(s: FixedState, context: Context): (r: FixedState)
    ensures forall c :: c in Keys(r.keys) <==> c in Keys(s.keys) && c != context
    ensures forall c :: c != context ==> Get(r.keys, c) == Get(s.keys, c)
    ensures FixedGood(s) ==> FixedGood(r)
  {
    var keys := Delete(s.keys, context);
    if Size(keys) == 0 && s.interval.Some? then
      FixedState(keys, None, ClearInterval(s.timers, Handle(s.interval.value)))
    else
      s.(keys := keys)
  }

  datatype AppEvent = Appear(context: Context) | Resolve(context: Context, ans: UniverseAnswer) | Disappear(context: Context)

  function FixedStep(s: FixedState, e: AppEvent): FixedState {
    match e
    case Appear(c) => FixedAppear(s, c)
    case Resolve(c, ans) => FixedResolved(s, c, ans)
    case Disappear(c) => FixedDisappear(s, c)
  }

  function FixedRun(s: FixedState, events: seq<AppEvent>): FixedState
    decreases |events|
  {
    if |events| == 0 then s else FixedRun(FixedStep(s, events[0]), events[1..])
  }

  /** With the handle kept and the key inserted first, any interleaving of
      appears, settling lookups and disappears keeps exactly one timer while
      some key is active and none once all are gone. */
  lemma {:induction false} FixedRunKeepsOneTimer(s: FixedState, events: seq<AppEvent>)
    requires FixedGood(s)
    ensures FixedGood(FixedRun(s, events))
    ensures |FixedRun(s, events).timers.live| == (if Size(FixedRun(s, events).keys) > 0 then 1 else 0)
    decreases |events|
  {
    if |events| > 0 {
      FixedRunKeepsOneTimer(FixedStep(s, events[0]), events[1..]);
    }
  }

  /** Starting from no keys and no timer, every state the corrected handlers
      reach holds one timer exactly while some key is active. */
  lemma FixedReachableStatesAreGood(events: seq<AppEvent>)
    ensures FixedGood(FixedRun(FixedInit, events))
  {
    FixedRunKeepsOneTimer(FixedInit, events);
  }
}

=== FILE: ordered_maps.dfy ===
/** A JavaScript `Map`: keys kept in insertion order, `set` on an existing key
    replaces its value in place, `set` on a new key appends, `delete` drops
    the key. Both coordinators keep their registries in one. */
module OrderedMaps {
  import opened Wrappers
  import opened Sequences

  /** The keys in iteration order, and the value of each. */
  datatype RawMap<K, V> = RawMap(order: seq<K>, vals: map<K, V>)

  /** Each key listed once, and exactly the keys that have a value. */
  ghost predicate Valid<K(!new), V>(m: RawMap<K, V>) {
    && NoDup(m.order)
    && (forall k {:trigger k in m.order} :: k in m.order <==> k in m.vals)
    && (forall i :: 0 <= i < |m.order| ==> m.order[i] in m.vals)
  }

  type OMap<K(!new), V> = m: RawMap<K, V> | Valid(m) witness RawMap([], map[])

  /** `map.size`. */
  function Size<K(!new), V>(m: OMap<K, V>): nat {
    |m.order|
  }

  /** The keys in iteration order (`map.keys()`). */
  function Keys<K(!new), V>(m: OMap<K, V>): seq<K> {
    m.order
  }

  /** The values in iteration order (`map.values()`). */
  function Values<K(!new), V>(m: OMap<K, V>): (vs: seq<V>)
    ensures |vs| == |m.order|
    ensures forall i :: 0 <= i < |m.order| ==> vs[i] == m.vals[m.order[i]]
  {
    seq(|m.order|, i requires 0 <= i < |m.order| => m.vals[m.order[i]])
  }

  /** `map.get(k)`, with `undefined` as `None`. */
  function Get<K(==,!new), V>(m: OMap<K, V>, k: K): (r: Option<V>)
    ensures r.Some? <==> k in m.vals
  {
    if k in m.vals then Some(m.vals[k]) else None
  }

  /** `map.set(k, v)`. */
  function Put<K(==,!new), V>(m: OMap<K, V>, k: K, v: V): (r: OMap<K, V>)
    ensures Get(r, k) == Some(v)
    ensures forall d {:trigger Get(r, d)} :: d != k ==> Get(r, d) == Get(m, d)
    ensures Keys(r) == if k in Keys(m) then Keys(m) else Keys(m) + [k]
  {
    if k in m.order then RawMap(m.order, m.vals[k := v])
    else
      NoDupSnoc(m.order, k);
      RawMap(m.order + [k], m.vals[k := v])
  }

  lemma NoDupSnoc<K>(ks: seq<K>, k: K)
    requires NoDup(ks) && k !in ks
    ensures NoDup(ks + [k])
  {
  }

  /** The keys of `ks` other than `k`, order kept. */
  function Without<K(==,!new)>(ks: seq<K>, k: K): (r: seq<K>)
    ensures forall d :: d in r <==> d in ks && d != k
    ensures NoDup(ks) ==> NoDup(r)
  {
    if |ks| == 0 then []
    else
      var p := Without(ks[..|ks| - 1], k);
      var x := ks[|ks| - 1];
      assert forall d :: d in ks <==> d in ks[..|ks| - 1] || d == x;
      assert NoDup(ks) ==> NoDup(ks[..|ks| - 1]) && x !in ks[..|ks| - 1];
      if x == k then p else p + [x]
  }

  /** `map.delete(k)`. */
  function Delete<K(==,!new), V>(m: OMap<K, V>, k: K): (r: OMap<K, V>)
    ensures Get(r, k) == None
    ensures forall d {:trigger Get(r, d)} :: d != k ==> Get(r, d) == Get(m, d)
    ensures Keys(r) == Without(Keys(m), k)
    ensures Size(r) == if k in Keys(m) then Size(m) - 1 else Size(m)
  {
    DeleteSize(m.order, k);
    var order := Without(m.order, k);
    assert forall i :: 0 <= i < |order| ==> order[i] in order;
    RawMap(order, m.vals - {k})
  }

  lemma {:induction false} DeleteSize<K(!new)>(ks: seq<K>, k: K)
    requires NoDup(ks)
    ensures |Without(ks, k)| == if k in ks then |ks| - 1 else |ks|
  {
    if |ks| > 0 {
      var p := ks[..|ks| - 1];
      assert NoDup(p);
      DeleteSize(p, k);
      assert forall d :: d in ks <==> d in p || d == ks[|ks| - 1];
    }
  }
}

=== FILE: refresh.dfy ===
/** `updateActions` of the current coordinator: the in-flight guard, the
    grouping of actions by universe, the two batch fetches and the dispatch
    of one image per universe. Network answers are inputs; the renderer is
    the `Rendered` constructor. */
module Refresh {
  import opened Wrappers
  import opened Sequences
  import opened OrderedMaps
  import opened Host
  import opened Fetchers

  /** A key or dial handed to `updateActions`: its id, and the answer the
      universe lookup for its configured place will get. */
  datatype Action = Action(id: ActionId, place: UniverseAnswer)

  /** One `setImage` call. */
  datatype Send = Send(target: ActionId, image: Image)

  /** The image shipped with the plugin, shown by actions without a universe. */
  const PLACEHOLDER := "imgs/actions/player-count/icon"

  /** What one call leaves behind: the in-flight set afterwards, the id list
      handed to both batch helpers (`None` when the call returned before
      fetching), and the `setImage` calls. */
  datatype Cycle = Cycle(updating: set<ActionId>, batch: Option<seq<int>>, sends: seq<Send>)

  function Universe(a: Action): int {
    GetUniverseFromPlace(a.place)
  }

  function Ids(acts: seq<Action>): set<ActionId> {
    set a | a in acts :: a.id
  }

  /** The actions not already being refreshed, order kept. */
  function Pending(actions: seq<Action>, updating: set<ActionId>): (f: seq<Action>)
    ensures forall a {:trigger a in f} :: a in f <==> a in actions && a.id !in updating
    ensures Ids(f) !! updating
    ensures (forall a :: a in actions ==> a.id in updating) ==> f == []
  {
    if |actions| == 0 then []
    else
      var p := Pending(actions[..|actions| - 1], updating);
      var a := actions[|actions| - 1];
      assert forall b :: b in actions <==> b in actions[..|actions| - 1] || b == a;
      if a.id in updating then p else p + [a]
  }

  /** The filter keeps every copy of an action not in flight, and no copy of
      one in flight. */
  lemma {:induction false} PendingKeepsEachCopy(actions: seq<Action>, updating: set<ActionId>, a: Action)
    ensures multiset(Pending(actions, updating))[a] == if a.id in updating then 0 else multiset(actions)[a]
  {
    if |actions| > 0 {
      var p := actions[..|actions| - 1];
      var x := actions[|actions| - 1];
      PendingKeepsEachCopy(p, updating, a);
      assert actions == p + [x];
      assert multiset(actions) == multiset(p) + multiset{x};
      if x.id in updating {
        assert Pending(actions, updating) == Pending(p, updating);
      } else {
        assert Pending(actions, updating) == Pending(p, updating) + [x];
        assert multiset(Pending(actions, updating)) == multiset(Pending(p, updating)) + multiset{x};
      }
    }
  }

  /** Marking actions in flight, and unmarking them. */
  function Enter(updating: set<ActionId>, f: seq<Action>): set<ActionId> {
    updating + Ids(f)
  }

  function Exit(updating: set<ActionId>, f: seq<Action>): set<ActionId> {
    updating - Ids(f)
  }

  /** Leaving undoes entering for the actions the guard let through. */
  lemma ExitUndoesEnter(updating: set<ActionId>, actions: seq<Action>)
    ensures Exit(Enter(updating, Pending(actions, updating)), Pending(actions, updating)) == updating
  {
    var f := Pending(actions, updating);
    assert Ids(f) !! updating;
  }

  /** The resolved universe of each action, in order. */
  function UniverseSeq(f: seq<Action>): (us: seq<int>)
    ensures |us| == |f|
    ensures forall i {:trigger us[i]} :: 0 <= i < |f| ==> us[i] == Universe(f[i])
  {
    seq(|f|, i requires 0 <= i < |f| => Universe(f[i]))
  }

  /** The actions of `f` whose universe is `u`, in order: the reference for
      what a `universeMap` bucket holds. */
  function Bucket(f: seq<Action>, u: int): (b: seq<Action>)
    ensures forall a {:trigger a in b} :: a in b <==> a in f && Universe(a) == u
    ensures |b| <= |f|
  {
    if |f| == 0 then []
    else
      var p := Bucket(f[..|f| - 1], u);
      var a := f[|f| - 1];
      assert forall x :: x in f <==> x in f[..|f| - 1] || x == a;
      if Universe(a) == u then p + [a] else p
  }

  /** `universeMap`, built by appending each action to its universe's list. */
  function GroupBy(f: seq<Action>): (g: OMap<int, seq<Action>>)
    ensures Keys(g) == Distinct(UniverseSeq(f))
  {
    if |f| == 0 then RawMap([], map[])
    else
      var p := f[..|f| - 1];
      var a := f[|f| - 1];
      var g0 := GroupBy(p);
      assert UniverseSeq(f)[..|f| - 1] == UniverseSeq(p);
      assert forall u :: u in Keys(g0) <==> u in UniverseSeq(p);
      Put(g0, Universe(a), Get(g0, Universe(a)).GetOr([]) + [a])
  }

  lemma UniverseSeqMember(f: seq<Action>, u: int)
    ensures u in UniverseSeq(f) <==> exists a :: a in f && Universe(a) == u
  {
    if u in UniverseSeq(f) {
      var i :| 0 <= i < |f| && UniverseSeq(f)[i] == u;
      assert f[i] in f;
    }
    if exists a :: a in f && Universe(a) == u {
      var a :| a in f && Universe(a) == u;
      var i :| 0 <= i < |f| && f[i] == a;
      assert UniverseSeq(f)[i] == u;
    }
  }

  /** Appending one action extends its universe's list and no other. */
  lemma GroupBySnoc(f: seq<Action>, u: int)
    requires |f| > 0
    ensures
      var p := f[..|f| - 1];
      var a := f[|f| - 1];
      Get(GroupBy(f), u).GetOr([]) ==
        if Universe(a) == u then Get(GroupBy(p), u).GetOr([]) + [a] else Get(GroupBy(p), u).GetOr([])
  {
  }

  /** `universeMap` has an entry exactly for the universes met. */
  lemma GroupByHas(f: seq<Action>, u: int)
    ensures Get(GroupBy(f), u).Some? <==> exists a :: a in f && Universe(a) == u
  {
    var g := GroupBy(f);
    assert Get(g, u).Some? <==> u in Keys(g);
    assert u in Keys(g) <==> u in UniverseSeq(f);
    UniverseSeqMember(f, u);
  }

  /** Each bucket of `universeMap` holds exactly the actions resolving to its
      universe, in order, and there is a bucket for every universe met. */
  lemma {:induction false} GroupByBuckets(f: seq<Action>)
    ensures forall u :: Get(GroupBy(f), u).GetOr([]) == Bucket(f, u)
    ensures forall u :: Get(GroupBy(f), u).Some? <==> exists a :: a in f && Universe(a) == u
  {
    if |f| > 0 {
      var p := f[..|f| - 1];
      GroupByBuckets(p);
      forall u ensures Get(GroupBy(f), u).GetOr([]) == Bucket(f, u) {
        GroupBySnoc(f, u);
      }
    }
    forall u ensures Get(GroupBy(f), u).Some? <==> exists a :: a in f && Universe(a) == u {
      GroupByHas(f, u);
    }
  }

  /** Every action lands in exactly one bucket: the one of its own universe,
      once per occurrence of it in the list. */
  lemma {:induction false} EachActionInExactlyOneBucket(f: seq<Action>, a: Action, u: int)
    ensures multiset(Bucket(f, u))[a] == if Universe(a) == u then multiset(f)[a] else 0
  {
    if |f| > 0 {
      var p := f[..|f| - 1];
      var x := f[|f| - 1];
      EachActionInExactlyOneBucket(p, a, u);
      assert f == p + [x];
      assert multiset(f) == multiset(p) + multiset{x};
      if Universe(x) == u {
        assert Bucket(f, u) == Bucket(p, u) + [x];
        assert multiset(Bucket(f, u)) == multiset(Bucket(p, u)) + multiset{x};
      } else {
        assert Bucket(f, u) == Bucket(p, u);
      }
    }
  }

  /** The universes handed to the batch helpers: those met, without 0. */
  function Sterilized(f: seq<Action>): seq<int> {
    NonZero(Keys(GroupBy(f)))
  }

  /** The single image composited for universe `u` (line 82). */
  function Composite(u: int, thumbs: map<int, string>, counts: map<int, string>): Image {
    Rendered(MapGetOr(thumbs, u, ""), MapGetOr(counts, u, ""))
  }

  /** `setImage` with `img` on each of `members`, in order. */
  function SendAll(members: seq<Action>, img: Image): (ss: seq<Send>)
    ensures |ss| == |members|
    ensures forall i :: 0 <= i < |members| ==> ss[i] == Send(members[i].id, img)
  {
    seq(|members|, i requires 0 <= i < |members| => Send(members[i].id, img))
  }

  /** One composite per listed universe, sent to every action of its bucket. */
  function Dispatch(us: seq<int>, g: OMap<int, seq<Action>>, thumbs: map<int, string>, counts: map<int, string>): seq<Send> {
    if |us| == 0 then []
    else
      var u := us[|us| - 1];
      Dispatch(us[..|us| - 1], g, thumbs, counts) + SendAll(Get(g, u).GetOr([]), Composite(u, thumbs, counts))
  }

  /** The placeholder for every action of bucket 0, if there is one. */
  function Blank(g: OMap<int, seq<Action>>): seq<Send> {
    match Get(g, 0)
    case Some(blank) => SendAll(blank, Resource(PLACEHOLDER))
    case None => []
  }

  /** Both batch helpers return rather than throw on `batch`. */
  predicate BatchSettles(batch: seq<int>, thumbsAns: Answer<seq<ThumbnailData>>, countsAns: Answer<seq<UniverseData>>) {
    GetThumbnails(batch, thumbsAns).Returns? && GetPlayerCounts(batch, countsAns).Returns?
  }

  /** Both batch helpers return on the batch built from `f`. */
  predicate Settles(f: seq<Action>, thumbsAns: Answer<seq<ThumbnailData>>, countsAns: Answer<seq<UniverseData>>) {
    BatchSettles(Sterilized(f), thumbsAns, countsAns)
  }

  /** The fan-out and fan-in of one call over the actions the guard let
      through: the batch list, whether the batch settled, and the `setImage`
      calls. */
  datatype Fan = Fan(batch: seq<int>, settled: bool, sends: seq<Send>)

  function FanOut(f: seq<Action>, thumbsAns: Answer<seq<ThumbnailData>>, countsAns: Answer<seq<UniverseData>>): (r: Fan)
    ensures r.settled == Settles(f, thumbsAns, countsAns)
    ensures NoDup(r.batch) && 0 !in r.batch
    ensures forall u :: u in r.batch <==> u != 0 && exists a :: a in f && Universe(a) == u
    ensures !r.settled ==> r.sends == []
  {
    var g := GroupBy(f);
    var batch := Sterilized(f);
    assert forall u :: u in batch <==> u != 0 && exists a :: a in f && Universe(a) == u by {
      forall u ensures u in batch <==> u != 0 && exists a :: a in f && Universe(a) == u {
        UniverseSeqMember(f, u);
      }
    }
    var thumbs := GetThumbnails(batch, thumbsAns);
    var counts := GetPlayerCounts(batch, countsAns);
    if thumbs.Throws? || counts.Throws? then
      Fan(batch, false, [])
    else
      Fan(batch, true, Dispatch(batch, g, thumbs.value, counts.value) + Blank(g))
  }

  /** `updateActions` as written: drop the actions in flight, return at once
      if none is left, mark the rest, group, fetch, dispatch, unmark. When a
      batch helper throws, the call rejects at the `await` of line 77 before
      the unmarking, and its actions stay marked. */
  function UpdateActions(updating: set<ActionId>, actions: seq<Action>,
                         thumbsAns: Answer<seq<ThumbnailData>>, countsAns: Answer<seq<UniverseData>>): (c: Cycle)
    ensures c.batch.Some? <==> Pending(actions, updating) != []
    ensures c.batch.None? ==> c == Cycle(updating, None, [])
    ensures c.batch.Some? ==> forall u :: u in c.batch.value <==>
      u != 0 && exists a :: a in Pending(actions, updating) && Universe(a) == u
    ensures c.batch.Some? ==> 0 !in c.batch.value && NoDup(c.batch.value)
    ensures c.batch.Some? ==> (c.updating == updating <==> BatchSettles(c.batch.value, thumbsAns, countsAns))
    ensures c.batch.Some? && !BatchSettles(c.batch.value, thumbsAns, countsAns) ==>
      c.updating == updating + Ids(Pending(actions, updating)) && c.sends == []
    ensures forall s :: s in c.sends ==> s.target !in updating
  {
    var f := Pending(actions, updating);
    if |f| == 0 then Cycle(updating, None, [])
    else
      var inFlight := Enter(updating, f);
      var fan := FanOut(f, thumbsAns, countsAns);
      SendsTargetPending(f, thumbsAns, countsAns);
      Cycle(if fan.settled then Exit(inFlight, f) else inFlight, Some(fan.batch), fan.sends)
  }

  /** `updateActions` with the unmarking in a `finally`: the in-flight set is
      restored whatever the batch helpers do. */
  function UpdateActionsReleasing(updating: set<ActionId>, actions: seq<Action>,
                                  thumbsAns: Answer<seq<ThumbnailData>>, countsAns: Answer<seq<UniverseData>>): (c: Cycle)
    ensures c.updating == updating
    ensures c.batch.Some? ==> 0 !in c.batch.value && NoDup(c.batch.value)
    ensures Settles(Pending(actions, updating), thumbsAns, countsAns) ==>
      c == UpdateActions(updating, actions, thumbsAns, countsAns)
  {
    var f := Pending(actions, updating);
    if |f| == 0 then Cycle(updating, None, [])
    else
      var fan := FanOut(f, thumbsAns, countsAns);
      Cycle(Exit(Enter(updating, f), f), Some(fan.batch), fan.sends)
  }

  // ---------------------------------------------------------------------
  // Who receives what

  /** The image an action of `f` is meant to receive: the placeholder in
      universe 0, otherwise its universe's composite. */
  function Expected(a: Action, thumbs: map<int, string>, counts: map<int, string>): Image {
    if Universe(a) == 0 then Resource(PLACEHOLDER) else Composite(Universe(a), thumbs, counts)
  }

  lemma SendAllMember(members: seq<Action>, img: Image, s: Send)
    ensures s in SendAll(members, img) <==> exists b :: b in members && s == Send(b.id, img)
  {
    if exists b :: b in members && s == Send(b.id, img) {
      var b :| b in members && s == Send(b.id, img);
      var i :| 0 <= i < |members| && members[i] == b;
      assert SendAll(members, img)[i] == s;
    }
  }

  /** One bucket of `universeMap` is the reference bucket. */
  lemma GroupByBucket(f: seq<Action>, u: int)
    ensures Get(GroupBy(f), u).GetOr([]) == Bucket(f, u)
  {
    GroupByBuckets(f);
  }

  /** The sends of one universe's bucket: its composite, to each of its actions. */
  lemma BucketSends(f: seq<Action>, u: int, thumbs: map<int, string>, counts: map<int, string>, s: Send)
    ensures s in SendAll(Bucket(f, u), Composite(u, thumbs, counts)) <==>
      exists a :: a in f && Universe(a) == u && s == Send(a.id, Composite(Universe(a), thumbs, counts))
  {
    SendAllMember(Bucket(f, u), Composite(u, thumbs, counts), s);
  }

  lemma {:induction false} DispatchMember(us: seq<int>, f: seq<Action>, thumbs: map<int, string>, counts: map<int, string>, s: Send)
    ensures s in Dispatch(us, GroupBy(f), thumbs, counts) <==>
      exists a :: a in f && Universe(a) in us && s == Send(a.id, Composite(Universe(a), thumbs, counts))
  {
    if |us| > 0 {
      var g := GroupBy(f);
      var u := us[|us| - 1];
      var p := us[..|us| - 1];
      var img := Composite(u, thumbs, counts);
      DispatchMember(p, f, thumbs, counts, s);
      BucketSends(f, u, thumbs, counts, s);
      GroupByBucket(f, u);
      assert Dispatch(us, g, thumbs, counts) == Dispatch(p, g, thumbs, counts) + SendAll(Bucket(f, u), img);
      if exists a :: a in f && Universe(a) in us && s == Send(a.id, Composite(Universe(a), thumbs, counts)) {
        var a :| a in f && Universe(a) in us && s == Send(a.id, Composite(Universe(a), thumbs, counts));
        if Universe(a) != u {
          assert Universe(a) in p;
        }
      }
      if s in Dispatch(p, g, thumbs, counts) {
        var a :| a in f && Universe(a) in p && s == Send(a.id, Composite(Universe(a), thumbs, counts));
        assert Universe(a) in us;
      }
    }
  }

  lemma SendsTargetPending(f: seq<Action>, thumbsAns: Answer<seq<ThumbnailData>>, countsAns: Answer<seq<UniverseData>>)
    ensures forall s :: s in FanOut(f, thumbsAns, countsAns).sends ==> s.target in Ids(f)
  {
    var fan := FanOut(f, thumbsAns, countsAns);
    if fan.settled {
      var g := GroupBy(f);
      GroupByBuckets(f);
      forall s | s in fan.sends ensures s.target in Ids(f) {
        var thumbs := GetThumbnails(Sterilized(f), thumbsAns).value;
        var counts := GetPlayerCounts(Sterilized(f), countsAns).value;
        if s in Dispatch(Sterilized(f), g, thumbs, counts) {
          DispatchMember(Sterilized(f), f, thumbs, counts, s);
        } else {
          assert s in Blank(g);
          SendAllMember(Bucket(f, 0), Resource(PLACEHOLDER), s);
        }
      }
    }
  }

  // ---------------------------------------------------------------------
  // How many `setImage` calls

  /** The total size of the buckets of the listed universes. */
  function BucketSizes(us: seq<int>, f: seq<Action>): nat {
    if |us| == 0 then 0 else BucketSizes(us[..|us| - 1], f) + |Bucket(f, us[|us| - 1])|
  }

  lemma BucketSnoc(f: seq<Action>, a: Action, u: int)
    ensures Bucket(f + [a], u) == Bucket(f, u) + (if Universe(a) == u then [a] else [])
  {
    assert (f + [a])[..|f|] == f;
  }

  /** One more action adds one to the total of the buckets listed, if its
      universe is listed. */
  lemma {:induction false} BucketSizesSnoc(us: seq<int>, f: seq<Action>, a: Action)
    requires NoDup(us)
    ensures BucketSizes(us, f + [a]) == BucketSizes(us, f) + (if Universe(a) in us then 1 else 0)
  {
    if |us| > 0 {
      var p := us[..|us| - 1];
      assert NoDup(p);
      BucketSizesSnoc(p, f, a);
      BucketSnoc(f, a, us[|us| - 1]);
      assert forall x :: x in us <==> x in p || x == us[|us| - 1];
    }
  }

  lemma BucketEmpty(f: seq<Action>, u: int)
    requires u !in UniverseSeq(f)
    ensures Bucket(f, u) == []
  {
    UniverseSeqMember(f, u);
    if |Bucket(f, u)| > 0 {
      assert Bucket(f, u)[0] in Bucket(f, u);
    }
  }

  /** The buckets of all universes met hold the actions between them. */
  lemma {:induction false} BucketsCoverAll(f: seq<Action>)
    ensures BucketSizes(Distinct(UniverseSeq(f)), f) == |f|
  {
    if |f| > 0 {
      var p := f[..|f| - 1];
      var a := f[|f| - 1];
      assert f == p + [a];
      assert UniverseSeq(f)[..|f| - 1] == UniverseSeq(p);
      assert UniverseSeq(f)[|f| - 1] == Universe(a);
      var d := Distinct(UniverseSeq(p));
      BucketsCoverAll(p);
      BucketSizesSnoc(d, p, a);
      if Universe(a) !in d {
        assert (d + [Universe(a)])[..|d|] == d;
        BucketEmpty(p, Universe(a));
        BucketSnoc(p, a, Universe(a));
      }
    }
  }

  /** Leaving universe 0 out of a duplicate-free list drops its bucket from
      the total. */
  lemma {:induction false} BucketSizesNonZero(us: seq<int>, f: seq<Action>)
    requires NoDup(us)
    ensures BucketSizes(NonZero(us), f) + (if 0 in us then |Bucket(f, 0)| else 0) == BucketSizes(us, f)
  {
    if |us| > 0 {
      var p := us[..|us| - 1];
      var x := us[|us| - 1];
      assert NoDup(p) && x !in p;
      BucketSizesNonZero(p, f);
      assert forall y :: y in us <==> y in p || y == x;
      if x != 0 {
        assert (NonZero(p) + [x])[..|NonZero(p)|] == NonZero(p);
      }
    }
  }

  lemma {:induction false} DispatchSize(us: seq<int>, f: seq<Action>, thumbs: map<int, string>, counts: map<int, string>)
    ensures |Dispatch(us, GroupBy(f), thumbs, counts)| == BucketSizes(us, f)
  {
    GroupByBuckets(f);
    if |us| > 0 {
      DispatchSize(us[..|us| - 1], f, thumbs, counts);
    }
  }

  /** The thumbnails and counts a settled call composites from. */
  function ThumbsOf(f: seq<Action>, thumbsAns: Answer<seq<ThumbnailData>>): map<int, string> {
    GetThumbnails(Sterilized(f), thumbsAns).GetOr(map[])
  }

  function CountsOf(f: seq<Action>, countsAns: Answer<seq<UniverseData>>): map<int, string> {
    GetPlayerCounts(Sterilized(f), countsAns).GetOr(map[])
  }

  /** A settled call's sends: the composites, then the placeholders. */
  lemma SettledSends(f: seq<Action>, thumbsAns: Answer<seq<ThumbnailData>>, countsAns: Answer<seq<UniverseData>>)
    requires Settles(f, thumbsAns, countsAns)
    ensures FanOut(f, thumbsAns, countsAns).sends ==
      Dispatch(Sterilized(f), GroupBy(f), ThumbsOf(f, thumbsAns), CountsOf(f, countsAns)) + Blank(GroupBy(f))
  {
  }

  /** A settled call sends exactly once per action it let through. */
  lemma {:induction false} OneSendPerAction(f: seq<Action>, thumbsAns: Answer<seq<ThumbnailData>>, countsAns: Answer<seq<UniverseData>>)
    requires Settles(f, thumbsAns, countsAns)
    ensures |FanOut(f, thumbsAns, countsAns).sends| == |f|
  {
    var g := GroupBy(f);
    SettledSends(f, thumbsAns, countsAns);
    GroupByBuckets(f);
    assert |Blank(g)| == |Bucket(f, 0)|;
    DispatchSize(Sterilized(f), f, ThumbsOf(f, thumbsAns), CountsOf(f, countsAns));
    BucketSizesNonZero(Keys(g), f);
    BucketsCoverAll(f);
    if 0 !in Keys(g) {
      BucketEmpty(f, 0);
    }
  }

  /** A settled call sends every action it let through the image meant for it. */
  lemma {:induction false} EveryActionSentItsImage(f: seq<Action>, thumbsAns: Answer<seq<ThumbnailData>>, countsAns: Answer<seq<UniverseData>>)
    requires Settles(f, thumbsAns, countsAns)
    ensures forall a :: a in f ==>
      Send(a.id, Expected(a, ThumbsOf(f, thumbsAns), CountsOf(f, countsAns))) in FanOut(f, thumbsAns, countsAns).sends
  {
    forall a | a in f
      ensures Send(a.id, Expected(a, ThumbsOf(f, thumbsAns), CountsOf(f, countsAns))) in FanOut(f, thumbsAns, countsAns).sends
    {
      ActionSentItsImage(f, thumbsAns, countsAns, a);
    }
  }

  /** One action of a settled call is sent the image meant for it. */
  lemma ActionSentItsImage(f: seq<Action>, thumbsAns: Answer<seq<ThumbnailData>>, countsAns: Answer<seq<UniverseData>>, a: Action)
    requires Settles(f, thumbsAns, countsAns) && a in f
    ensures Send(a.id, Expected(a, ThumbsOf(f, thumbsAns), CountsOf(f, countsAns))) in FanOut(f, thumbsAns, countsAns).sends
  {
    var thumbs := ThumbsOf(f, thumbsAns);
    var counts := CountsOf(f, countsAns);
    var g := GroupBy(f);
    var want := Send(a.id, Expected(a, thumbs, counts));
    SettledSends(f, thumbsAns, countsAns);
    GroupByHas(f, Universe(a));
    if Universe(a) == 0 {
      GroupByBucket(f, 0);
      assert Blank(g) == SendAll(Bucket(f, 0), Resource(PLACEHOLDER));
      SendAllMember(Bucket(f, 0), Resource(PLACEHOLDER), want);
      assert want in Blank(g);
    } else {
      UniverseSeqMember(f, Universe(a));
      assert Universe(a) in Keys(g);
      assert Universe(a) in Sterilized(f);
      DispatchMember(Sterilized(f), f, thumbs, counts, want);
      assert want in Dispatch(Sterilized(f), g, thumbs, counts);
    }
  }

  /** A settled call sends nothing but the image meant for some action it let
      through. */
  lemma {:induction false} OnlyIntendedSends(f: seq<Action>, thumbsAns: Answer<seq<ThumbnailData>>, countsAns: Answer<seq<UniverseData>>)
    requires Settles(f, thumbsAns, countsAns)
    ensures forall s :: s in FanOut(f, thumbsAns, countsAns).sends ==>
      exists a :: a in f && s == Send(a.id, Expected(a, ThumbsOf(f, thumbsAns), CountsOf(f, countsAns)))
  {
    var thumbs := ThumbsOf(f, thumbsAns);
    var counts := CountsOf(f, countsAns);
    var g := GroupBy(f);
    SettledSends(f, thumbsAns, countsAns);
    GroupByBuckets(f);
    forall s | s in FanOut(f, thumbsAns, countsAns).sends
      ensures exists a :: a in f && s == Send(a.id, Expected(a, thumbs, counts))
    {
      if s in Dispatch(Sterilized(f), g, thumbs, counts) {
        DispatchMember(Sterilized(f), f, thumbs, counts, s);
      } else {
        SendAllMember(Bucket(f, 0), Resource(PLACEHOLDER), s);
      }
    }
  }

  /** Fan-in of one settled call: every action the guard let through is sent
      exactly the image meant for it, the placeholder in universe 0 and its
      universe's single composite otherwise, and nothing else is sent. */
  lemma EveryActionGetsItsGroupImage(updating: set<ActionId>, actions: seq<Action>,
                                     thumbsAns: Answer<seq<ThumbnailData>>, countsAns: Answer<seq<UniverseData>>)
    requires Settles(Pending(actions, updating), thumbsAns, countsAns)
    ensures
      var f := Pending(actions, updating);
      var c := UpdateActions(updating, actions, thumbsAns, countsAns);
      var thumbs := ThumbsOf(f, thumbsAns);
      var counts := CountsOf(f, countsAns);
      && |c.sends| == |f|
      && (forall a :: a in f ==> Send(a.id, Expected(a, thumbs, counts)) in c.sends)
      && (forall s :: s in c.sends ==> exists a :: a in f && s == Send(a.id, Expected(a, thumbs, counts)))
  {
    var f := Pending(actions, updating);
    if |f| > 0 {
      assert UpdateActions(updating, actions, thumbsAns, countsAns).sends == FanOut(f, thumbsAns, countsAns).sends;
      OneSendPerAction(f, thumbsAns, countsAns);
      EveryActionSentItsImage(f, thumbsAns, countsAns);
      OnlyIntendedSends(f, thumbsAns, countsAns);
    }
  }

  // ---------------------------------------------------------------------
  // The in-flight guard across calls

  /** A call made while another is between entering and leaving skips every
      action the first one holds, so no action is refreshed twice at once. */
  lemma OverlappingCallSkipsHeldActions(updating: set<ActionId>, first: seq<Action>, second: seq<Action>,
                                        thumbsAns: Answer<seq<ThumbnailData>>, countsAns: Answer<seq<UniverseData>>)
    ensures
      var held := Enter(updating, Pending(first, updating));
      && Ids(Pending(second, held)) !! Ids(Pending(first, updating))
      && forall s :: s in UpdateActions(held, second, thumbsAns, countsAns).sends ==> s.target !in Ids(Pending(first, updating))
  {
  }

  /** A rejected batch (some action needs a fetch, and a batch helper
      throws) leaves its actions marked for good: `updateActions`
      on the same actions afterwards returns at once and refreshes nothing. */
  lemma RejectedBatchStrandsActions(updating: set<ActionId>, actions: seq<Action>,
                                    thumbsAns: Answer<seq<ThumbnailData>>, countsAns: Answer<seq<UniverseData>>,
                                    laterThumbs: Answer<seq<ThumbnailData>>, laterCounts: Answer<seq<UniverseData>>)
    requires exists a :: a in Pending(actions, updating) && Universe(a) != 0
    requires ThumbnailsReject(thumbsAns) || CountsReject(countsAns)
    ensures
      var c := UpdateActions(updating, actions, thumbsAns, countsAns);
      && c.updating != updating
      && UpdateActions(c.updating, actions, laterThumbs, laterCounts) == Cycle(c.updating, None, [])
  {
    var f := Pending(actions, updating);
    var c := UpdateActions(updating, actions, thumbsAns, countsAns);
    var b :| b in f && Universe(b) != 0;
    assert Universe(b) in c.batch.value;
    assert f[0] in f;
    assert f[0].id in c.updating && f[0].id !in updating;
    forall a | a in actions ensures a.id in c.updating {
      if a.id !in updating {
        assert a in f;
      }
    }
  }
}

=== FILE: registry.dfy ===
/** The current coordinator's registry of active actions and its single
    refresh timer (`registerAction` / `unregisterAction`). */
module Registry {
  import opened Wrappers
  import opened Host

  /** `activeActions`, `intervalId`, and the host's timers. */
  datatype State = State(active: set<ActionId>, intervalId: Option<nat>, timers: Timers)

  const Init := State({}, None, NoTimers)

  /** The registry's invariant: a timer handle is held exactly when some
      action is active, and the held handle is the only running timer. */
  predicate Good(s: State) {
    && (s.intervalId.Some? <==> s.active != {})
    && s.timers.live == (if s.intervalId.Some? then {s.intervalId.value} else {})
    && Fresh(s.timers)
  }

  /** `registerAction`: add the id; start the timer only when none is held. */
  function RegisterAction(s: State, id: ActionId): (r: State)
    ensures r.active == s.active + {id}
    ensures s.intervalId.Some? ==> r.intervalId == s.intervalId && r.timers == s.timers
    ensures s.intervalId.None? ==> r.intervalId.Some? && r.timers.live == s.timers.live + {r.intervalId.value}
    ensures Good(s) ==> Good(r) && |r.timers.live| == 1
  {
    var active := s.active + {id};
    if |active| > 0 && s.intervalId.None? then
      var (h, t) := SetInterval(s.timers);
      State(active, Some(h), t)
    else
      s.(active := active)
  }

  /** `unregisterAction`: drop the id; stop and forget the timer once no
      action is left. */
  function UnregisterAction(s: State, id: ActionId): (r: State)
    ensures r.active == s.active - {id}
    ensures r.intervalId != s.intervalId ==> r.active == {} && r.intervalId.None?
    ensures r.active != {} ==> r.timers == s.timers
    ensures Good(s) ==> Good(r)
    ensures Good(s) ==> (r.timers.live != s.timers.live <==> s.active != {} && r.active == {})
  {
    var active := s.active - {id};
    if |active| == 0 && s.intervalId.Some? then
      State(active, None, ClearInterval(s.timers, Handle(s.intervalId.value)))
    else
      s.(active := active)
  }

  datatype Event = Register(id: ActionId) | Unregister(id: ActionId)

  function Step(s: State, e: Event): State {
    match e
    case Register(id) => RegisterAction(s, id)
    case Unregister(id) => UnregisterAction(s, id)
  }

  /** The state after handling `events` in order, starting from `s`. */
  function Run(s: State, events: seq<Event>): State
    decreases |events|
  {
    if |events| == 0 then s else Run(Step(s, events[0]), events[1..])
  }

  /** The timer runs exactly while some action is registered, and never are
      two timers running, after any sequence of registrations and
      unregistrations. */
  lemma {:induction false} RunKeepsSingleTimer(s: State, events: seq<Event>)
    requires Good(s)
    ensures Good(Run(s, events))
    ensures |Run(s, events).timers.live| <= 1
    ensures Run(s, events).timers.live != {} <==> Run(s, events).active != {}
    decreases |events|
  {
    if |events| > 0 {
      RunKeepsSingleTimer(Step(s, events[0]), events[1..]);
    }
  }

  /** The registry starts out satisfying its invariant, so every reachable
      state does. */
  lemma ReachableStatesAreGood(events: seq<Event>)
    ensures Good(Run(Init, events))
    ensures |Run(Init, events).timers.live| <= 1
  {
    RunKeepsSingleTimer(Init, events);
  }

  /** Registering an id that is already registered starts no timer. */
  lemma RegisterAgainStartsNoTimer(s: State, id: ActionId)
    requires Good(s) && id in s.active
    ensures RegisterAction(s, id) == s
  {
    assert s.active + {id} == s.active;
  }
}

=== FILE: sequences.dfy ===
/** Facts about sequences shared by both refresh coordinators: duplicate-free
    lists, first-seen de-duplication, and dropping the reserved universe 0. */
module Sequences {

  predicate NoDup<T(==)>(s: seq<T>) {
    forall i, j :: 0 <= i < j < |s| ==> s[i] != s[j]
  }

  /** Position of the first occurrence of `x` in `s`. */
  function FirstIndex<T(==)>(s: seq<T>, x: T): (i: nat)
    requires x in s
    ensures i < |s| && s[i] == x
    ensures forall k :: 0 <= k < i ==> s[k] != x
  {
    if s[0] == x then 0 else 1 + FirstIndex(s[1..], x)
  }

  /** Each distinct element of `s` once, in the order it is first seen: the
      shape of a JavaScript `Map`'s keys after inserting `s` in order, and of
      a list built by "push unless already included". */
  function Distinct<T(==,!new)>(s: seq<T>): (r: seq<T>)
    ensures NoDup(r)
    ensures forall x {:trigger x in r} :: x in r <==> x in s
    ensures forall i :: 0 <= i < |r| ==> r[i] in s
    ensures |r| <= |s|
  {
    if |s| == 0 then []
    else
      var d := Distinct(s[..|s| - 1]);
      assert forall x :: x in s <==> x in s[..|s| - 1] || x == s[|s| - 1];
      if s[|s| - 1] in d then d else d + [s[|s| - 1]]
  }

  lemma FirstIndexOfPrefix<T>(s: seq<T>, n: nat, x: T)
    requires n <= |s| && x in s[..n]
    ensures x in s && FirstIndex(s, x) == FirstIndex(s[..n], x)
  {
    var i := FirstIndex(s[..n], x);
    assert s[i] == x;
    var j := FirstIndex(s, x);
    assert j <= i;
    assert s[..n][j] == x;
  }

  /** Distinct keeps first-seen order: an element listed earlier in the result
      was first seen earlier in the input. */
  lemma {:induction false} DistinctFirstSeenOrder<T(!new)>(s: seq<T>)
    ensures forall i, j :: 0 <= i < j < |Distinct(s)| ==>
      FirstIndex(s, Distinct(s)[i]) < FirstIndex(s, Distinct(s)[j])
  {
    if |s| > 0 {
      var p := s[..|s| - 1];
      var x := s[|s| - 1];
      var d := Distinct(p);
      DistinctFirstSeenOrder(p);
      forall i, j | 0 <= i < j < |Distinct(s)|
        ensures FirstIndex(s, Distinct(s)[i]) < FirstIndex(s, Distinct(s)[j])
      {
        var r := Distinct(s);
        assert r[i] in d;
        FirstIndexOfPrefix(s, |s| - 1, r[i]);
        if j < |d| {
          FirstIndexOfPrefix(s, |s| - 1, r[j]);
        } else {
          assert r[j] == x && x !in p;
          assert FirstIndex(s, x) == |s| - 1;
        }
      }
    }
  }

  /** `s` without the reserved universe id 0, order kept. */
  function NonZero(s: seq<int>): (r: seq<int>)
    ensures forall x {:trigger x in r} :: x in r <==> x in s && x != 0
    ensures NoDup(s) ==> NoDup(r)
    ensures |r| <= |s|
  {
    if |s| == 0 then []
    else
      var p := NonZero(s[..|s| - 1]);
      assert forall x :: x in s <==> x in s[..|s| - 1] || x == s[|s| - 1];
      assert NoDup(s) ==> NoDup(s[..|s| - 1]) && s[|s| - 1] !in s[..|s| - 1];
      assert NoDup(s) && s[|s| - 1] != 0 ==> s[|s| - 1] !in p;
      if s[|s| - 1] == 0 then p else p + [s[|s| - 1]]
  }
}

=== FILE: wrappers.dfy ===
/** The optional value used wherever the source reads a `Map.get` that may
    come back `undefined`, or keeps a handle that may be `null`. */
module Wrappers {

  datatype Option<+T> = None | Some(value: T) {

    /** The value, or `default` when there is none: the source's `x || default`. */
    function GetOr(default: T): T {
      match this
      case Some(v) => v
      case None => default
    }
  }

  /** `m.get(k)`, with `default` for what a missing key reads as. */
  function MapGetOr<K, V>(m: map<K, V>, k: K, default: V): V {
    if k in m then m[k] else default
  }
}
